=== FILE: README.md ===
# Invoice numbering of commerce_invoice, in Dafny

This project models how the Drupal module `commerce_invoice` numbers
invoices. The model covers five parts:

- the four invoice number generator plugins (Infinite, Yearly, Monthly and
  Monthly no reset), which turn the last issued `InvoiceNumber` and the
  current year and month into the next one;
- `InvoiceNumberFormatter::format`, which zero-pads the counter and
  substitutes `{invoice_number}`, `{year}` and `{month}` into the
  configured pattern;
- `InvoiceNumberGeneratorManager::processDefinition`, which rejects a
  plugin annotation without an id or a label, and the lookup of the
  configured plugin by id;
- `InvoiceNumberGenerationService::generateAndSetInvoiceNumber`, which
  loads the last number, generates and formats a candidate, retries while
  an invoice already carries that number, and stores and returns the
  result;
- the `InvoiceNumber` value object (counter, year, month, formatted
  value). Its class is not part of this model; it is reconstructed from how
  the code above uses it.

The PHP objects are modelled as immutable values. Where the PHP code
mutates an object it was handed and hands it back, the model records the
aliasing explicitly:

- `Generated.reusedLast` says that the generator returned `last` itself;
- `LoopState.aliased` says that the candidate and the loaded last number
  are the same object.

The service takes its formatter as a function parameter (`NumberFormat`),
the way the PHP service takes an injected formatter. `ConfiguredFormat`
plugs in the modelled `Format`.

Files:

- `wrappers.dfy`: `Option` and `Result`.
- `invoice_number.dfy`: the value object.
- `decimal_text.dfy`: PHP's `(string)` of a non-negative integer and `str_pad` with '0'.
- `formatter.dfy`: `format`.
- `generators.dfy`: the four plugins.
- `generator_manager.dfy`: definitions and plugin lookup.
- `generation_service.dfy`: the service as written.
- `corrected_service.dfy`: the retry loop as it was evidently meant to work.

`GenerationService` follows the code as written on three points. Each of
the last two is also logged under "## Findings", with a corrected version:

- **The Infinite generator keeps the last number's period.** It
  increments the last number in place and never updates its year or
  month, whatever the date.
- **Each retry calls `generate` again.** The retry loop calls
  `generate($last_order_number)` again after `increment()`
  (`InvoiceNumberGenerationService.php:100-101`). Its comment
  (`:95-96`) speaks only of incrementing until the value is unique.
- **A stored start number is ignored.** The settings form writes an
  integer start number into the `last_invoice_number` slot
  (`Form/InvoiceSettingsForm.php:111-116`). Its help text
  (`:189-191`) says the first invoice will be the number after it. The
  service discards any value that is not an `InvoiceNumber` and starts
  over (`InvoiceNumberGenerationService.php:87-89`).

## Model

| member | source | states |
|---|---|---|
| DecimalText.Decimal | src/InvoiceNumberFormatter.php:33 | `(string)` of a counter is canonical decimal text (digits only, no superfluous leading zero) |
| DecimalText.PadWithZeros | src/InvoiceNumberFormatter.php:38 | `str_pad(.., '0', STR_PAD_LEFT)` only prepends zeros, reaches exactly the width when shorter, and never truncates |
| DecimalText.ParseDecimalOfDecimal | src/InvoiceNumberFormatter.php:33 | the decimal text of a counter reads back as that counter |
| DecimalText.DecimalOfParseDecimal | src/InvoiceNumberFormatter.php:33 | every canonical digit string is the decimal text of the number it denotes, so the text is a bijection |
| DecimalText.DecimalInjective | src/InvoiceNumberFormatter.php:33 | distinct counters have distinct decimal texts |
| DecimalText.ParseDecimalIgnoresLeadingZeros | src/InvoiceNumberFormatter.php:37-39 | padding with zeros does not change the value the digits denote |
| Formatter.LeadingPlaceholder | src/InvoiceNumberFormatterInterface.php:10-14 | a recognised placeholder is one of the three constants and is a prefix of the text |
| Formatter.NumberText | src/InvoiceNumberFormatter.php:36-39 | a padding of 0 or less leaves the decimal counter alone; a positive padding left-pads with zeros to at least that width and never shortens |
| Formatter.YearText | src/Plugin/Commerce/InvoiceNumberGenerator/YearlyInvoiceNumberGenerator.php:23 | the year substituted is the `date('Y')` text: digits denoting the year, exactly four of them for years below 10000 |
| Formatter.MonthText | src/Plugin/Commerce/InvoiceNumberGenerator/MonthlyInvoiceNumberGenerator.php:25 | the month substituted is the `date('m')` text: digits denoting the month, exactly two of them for months 1 to 12 |
| DecimalText.DecimalFitsWidth | src/InvoiceNumberFormatter.php:33 | a number below 10^k is written with at most k digits |
| DecimalText.DecimalWidthAtMost | src/InvoiceNumberFormatter.php:33 | the same bound, stated for every number |
| Formatter.Format | src/InvoiceNumberFormatter.php:32-55 | the three `str_replace` passes give the same text as one left-to-right scan that replaces each placeholder by its text; missing padding and pattern come from configuration, an unset pattern giving "" |
| Formatter.SubstitutionIsSinglePass | src/InvoiceNumberFormatter.php:42-52 | replacing `{invoice_number}`, then `{year}`, then `{month}` over the whole string equals the single scan, because the substituted texts are digits and cannot form a new placeholder |
| Formatter.ReplaceAll | src/InvoiceNumberFormatter.php:52 | one `str_replace` pass: a search string at the front of the subject is replaced there by its replacement |
| Formatter.ReplaceAllWithoutOccurrence | src/InvoiceNumberFormatter.php:52 | a subject in which the search string never starts comes back unchanged from the pass |
| Formatter.Passes | src/InvoiceNumberFormatter.php:42-52 | the three passes of `str_replace($search, $replace, $pattern)`, in array order; a pattern without placeholders comes back unchanged |
| Formatter.PlaceholderFreeHasNoOccurrence | src/InvoiceNumberFormatterInterface.php:10-14 | text without placeholders contains none of the three search strings |
| Formatter.EffectivePadding | src/InvoiceNumberFormatter.php:36 | an explicit padding wins; a NULL argument takes the configured padding; with neither, the `(int)` cast of NULL gives 0 |
| Formatter.EffectivePattern | src/InvoiceNumberFormatter.php:41 | an explicit pattern wins; a NULL argument takes the configured pattern; with neither, `str_replace` on NULL gives "" |
| Formatter.ReplaceAllCopiesPrefix | src/InvoiceNumberFormatter.php:52 | a `str_replace` pass copies a prefix that cannot start the search string |
| Formatter.ReplaceAllHead | src/InvoiceNumberFormatter.php:52 | the first character a `str_replace` pass writes is the replacement's when the search string is in front, the subject's otherwise |
| Formatter.ReplaceAllReflectsPrefix | src/InvoiceNumberFormatter.php:52 | a pass that inserts only digits cannot create a digit-free prefix that was not there |
| Formatter.PassesAtNumber | src/InvoiceNumberFormatter.php:43 | a leading `{invoice_number}` becomes the number text |
| Formatter.PassesAtYear | src/InvoiceNumberFormatter.php:44 | a leading `{year}` becomes the year text |
| Formatter.PassesAtMonth | src/InvoiceNumberFormatter.php:45 | a leading `{month}` becomes the month text |
| Formatter.PassesAtOther | src/InvoiceNumberFormatter.php:52 | a character that starts no placeholder is copied |
| Formatter.RenderPlaceholderFree | src/InvoiceNumberFormatter.php:52 | text without placeholders is copied verbatim |
| Formatter.PlaceholderStaysInside | src/InvoiceNumberFormatterInterface.php:10-14 | no placeholder can straddle a '{' in the text, in both directions |
| Formatter.LeadingPlaceholderOfConcat | src/InvoiceNumberFormatterInterface.php:10-14 | in front of a '{' the placeholder recognised depends on the left part only |
| Formatter.RenderSplitsAtBrace | src/InvoiceNumberFormatter.php:52 | formatting splits at any '{' into independent parts |
| Formatter.LeadingPlaceholderOfPlaceholder | src/InvoiceNumberFormatterInterface.php:10-14 | each placeholder is recognised as itself, never as another |
| Formatter.RenderReplacesEachPlaceholder | src/InvoiceNumberFormatter.php:42-52 | the scan replaces a placeholder by its own text and reads either side on its own |
| Formatter.FormatReplacesEachPlaceholder | src/InvoiceNumberFormatter.php:42-52 | every occurrence of a placeholder in the pattern is replaced by its own text, and the text around it is formatted independently |
| Formatter.RenderOfLonePlaceholder | src/InvoiceNumberFormatter.php:42-52 | a pattern that is one placeholder renders as that placeholder's text |
| Formatter.FormatWithoutPlaceholders | src/InvoiceNumberFormatter.php:52 | a pattern without placeholders comes back unchanged, whatever the number |
| Formatter.NumberTextReadsBack | src/InvoiceNumberFormatter.php:36-39 | padding is lossless: the padded text still denotes the counter |
| Formatter.NumberTextExample | src/Form/InvoiceSettingsForm.php:157 | 52 padded to 6 is "000052" |
| Formatter.FormatPaddingExample | src/Form/InvoiceSettingsForm.php:157 | the settings form's example: with padding 6, pattern "{invoice_number}" renders 52 as "000052" |
| Generators.GenerateInfinite | src/Plugin/Commerce/InvoiceNumberGenerator/InfiniteInvoiceNumberGenerator.php:22-32 | no last number gives 1 in the current period; otherwise the last object itself, one higher, in its own period and with every other field, its recorded value included, unchanged |
| Generators.GenerateYearly | src/Plugin/Commerce/InvoiceNumberGenerator/YearlyInvoiceNumberGenerator.php:21-31 | the result is in the current year; the last object is continued exactly when it is of this year (one higher, every other field kept), otherwise a fresh 1 |
| Generators.GenerateMonthly | src/Plugin/Commerce/InvoiceNumberGenerator/MonthlyInvoiceNumberGenerator.php:22-32 | the result is in the current month; the last object is continued exactly when year and month match (one higher, every other field kept), otherwise a fresh 1 |
| Generators.GenerateMonthlyNoReset | src/Plugin/Commerce/InvoiceNumberGenerator/MonthlyNoResetInvoiceNumberGenerator.php:22-32 | fails exactly when there is no last number (method call on NULL); otherwise one past the last counter, in the current month, a new object with no recorded value exactly when the period changed, otherwise the last object one higher with every other field kept |
| Generators.Generate | src/Plugin/Commerce/InvoiceNumberGenerator/InvoiceNumberGeneratorInterface.php:29-42 | for every plugin: fails only for Monthly no reset without a last number; the result is in period, one past the carried counter, and is the last object exactly when that was still in period |
| Generators.MonthlyNoResetFailsWithoutLastNumber | src/Plugin/Commerce/InvoiceNumberGenerator/MonthlyNoResetInvoiceNumberGenerator.php:26-28 | with no last number Monthly no reset fails, where Monthly starts at 1 |
| Generators.GenerateMonthlyNoResetCorrected | src/Plugin/Commerce/InvoiceNumberGenerator/InvoiceNumberGeneratorInterface.php:33-35 | without a last number a fresh 1 in the current period; otherwise exactly what the plugin returns |
| Generators.IssueCountsWithoutGaps | src/InvoiceNumberGenerationService.php:91 | within one period `k` successive generations end at the carried counter plus `k`, with no gap and no reset |
| Generators.YearlyResetExample | src/Plugin/Commerce/InvoiceNumberGenerator/YearlyInvoiceNumberGenerator.php:25-29 | 5 of December 2023 becomes 1 of January 2024 |
| Generators.MonthlyResetExample | src/Plugin/Commerce/InvoiceNumberGenerator/MonthlyInvoiceNumberGenerator.php:26-30 | 5 of January becomes 1 of February |
| Generators.InfiniteKeepsPeriodExample | src/Plugin/Commerce/InvoiceNumberGenerator/InfiniteInvoiceNumberGenerator.php:23-30 | 5 of January 2023 becomes 6 of January 2023, even in 2025 |
| Generators.MonthlyNoResetCarryExample | src/Plugin/Commerce/InvoiceNumberGenerator/MonthlyNoResetInvoiceNumberGenerator.php:26-30 | 5 of January becomes 6 of February |
| GeneratorManager.FirstEmptyProperty | src/InvoiceNumberGeneratorManager.php:44-47 | the loop stops at the first empty required property, and finds none exactly when all are set |
| GeneratorManager.ProcessDefinition | src/InvoiceNumberGeneratorManager.php:41-49 | a definition passes exactly when id and label are non-empty and is then unchanged; a missing id is reported before a missing label, each with its message |
| GeneratorManager.DescriptionIsOptional | src/InvoiceNumberGeneratorManager.php:44 | removing the description never changes the verdict |
| GeneratorManager.PluginDefinition | src/Plugin/Commerce/InvoiceNumberGenerator/InfiniteInvoiceNumberGenerator.php:10-15 | each plugin's annotation declares the plugin's own id and a label of two or more characters (the other three plugins' annotations have the same shape) |
| GeneratorManager.Annotation | src/Plugin/Commerce/InvoiceNumberGenerator/InfiniteInvoiceNumberGenerator.php:10-15 | an annotation's definition holds its id and label |
| GeneratorManager.CreateInstance | src/InvoiceNumberGenerationService.php:80 | a found plugin declares the requested id; the lookup fails exactly when no plugin declares it |
| GeneratorManager.PluginsAreFoundById | src/InvoiceNumberGenerationService.php:80 | every plugin is found under the id its annotation declares |
| GeneratorManager.PluginDefinitionsAreValid | src/Plugin/Commerce/InvoiceNumberGenerator/MonthlyNoResetInvoiceNumberGenerator.php:10-15 | every shipped annotation declares its own id and passes `processDefinition` |
| GeneratorManager.AnnotationIsValid | src/InvoiceNumberGeneratorManager.php:44-47 | an annotation with an id and a label of two or more characters passes `processDefinition`, whatever its description |
| GeneratorManager.NamedDefinitionIsValid | src/InvoiceNumberGeneratorManager.php:44-47 | an id and a label of two or more characters are never empty |
| InvoiceNumbers.NewNumber | src/Plugin/Commerce/InvoiceNumberGenerator/YearlyInvoiceNumberGenerator.php:27 | `new InvoiceNumber($i, $year, $month)` holds exactly those three and no formatted value |
| InvoiceNumbers.Increment | src/Plugin/Commerce/InvoiceNumberGenerator/YearlyInvoiceNumberGenerator.php:29 | `increment()` adds one to the counter and changes nothing else |
| InvoiceNumbers.SetValue | src/InvoiceNumberGenerationService.php:93 | `setValue()` records the formatted string and changes nothing else |
| GeneratorManager.IsEmptyProperty | src/InvoiceNumberGeneratorManager.php:45 | PHP `empty()` on a definition entry: a missing key or "" is empty; of the one-character strings only "0" is; no longer string is |
| GeneratorManager.MissingPropertyMessage | src/InvoiceNumberGeneratorManager.php:46 | the message puts the plugin id and the property name where the format string's two `%s` are |
| GenerationService.IsPhpEmpty | src/InvoiceNumberGenerationService.php:86 | `empty()` holds for an unset slot and for the integer 0, for no other integer, and never for an `InvoiceNumber` object |
| GenerationService.LoadLastNumber | src/InvoiceNumberGenerationService.php:86-89 | a last number is loaded exactly when the slot holds an `InvoiceNumber`, and is that object |
| GenerationService.StartNumberIsIgnored | src/InvoiceNumberGenerationService.php:87-89 | the integer start number the settings form stores (Form/InvoiceSettingsForm.php:111-116) loads as no last number at all |
| GenerationService.Collides | src/InvoiceNumberGenerationService.php:97-99 | only a number an invoice carries can collide; "" and "0" never do, being false in PHP; every other taken number does, "1" to "9" included |
| GenerationService.Retry | src/InvoiceNumberGenerationService.php:100-103 | a pass of the loop body gives a candidate in period with its own formatted value; when the candidate was not the last object, the `increment()` is lost and the counter is again one past the carried one |
| GenerationService.Retries | src/InvoiceNumberGenerationService.php:97-104 | after one or more passes the candidate is in period and carries its own formatted value |
| GenerationService.ConfiguredFormat | src/InvoiceNumberGenerationService.php:91 | the injected `format($invoice_number)`, both optional arguments NULL: the configured pattern rendered with the counter padded to the configured width, an unset pattern giving "" and an unset padding 0 |
| GenerationService.Attempt | src/InvoiceNumberGenerationService.php:91-93 | the candidate is one past the carried counter and in period, carries its own formatted value, and is the last object exactly when that was in period; a freshly built candidate is in the current year and month |
| GenerationService.GenerateAndSetInvoiceNumber | src/InvoiceNumberGenerationService.php:76-109 | unknown plugin and NULL-last failures exactly when they apply; otherwise the returned number is free, is the one stored, follows the loop's passes, each earlier one colliding; an unused first candidate is returned at once |
| GenerationService.AliasedRetryStep | src/InvoiceNumberGenerationService.php:100-101 | on a candidate that is the last object, one pass adds two to the counter and keeps it the last object |
| GenerationService.AliasedRetriesAdvanceByTwo | src/InvoiceNumberGenerationService.php:97-104 | after `k` passes on such a candidate the counter has moved on by `2k` in the same period |
| GenerationService.FreshRetriesRepeat | src/InvoiceNumberGenerationService.php:100-101 | a freshly built candidate is rebuilt identically by every pass |
| GenerationService.FreshCollisionNeverClears | src/InvoiceNumberGenerationService.php:97-104 | so when it collides, every pass collides and the loop never ends |
| GenerationService.BareNumberFormat | src/InvoiceNumberFormatter.php:42-52 | the pattern "{invoice_number}" without padding renders the bare decimal counter |
| GenerationService.RolloverCollisionLoopsForever | src/InvoiceNumberGenerationService.php:97-104 | a monthly counter rolled into February meets an invoice "1" and collides after any number of passes |
| GenerationService.RetrySkipsFreeNumber | src/InvoiceNumberGenerationService.php:100-101 | an infinite counter at 5 meeting "6" issues "8", though "7" is free |
| GenerationService.ZeroIsNeverACollision | src/InvoiceNumberGenerationService.php:97-99 | with the pattern "0" and an invoice numbered "0", the first candidate formats to "0" and the loop test still lets it through |
| CorrectedService.LoadLastNumber | src/Form/InvoiceSettingsForm.php:189-191 | a positive start number in the slot loads as that counter in the current period; any other value loads as in `GenerationService.LoadLastNumber` |
| CorrectedService.StartNumberSeedsCounter | src/Form/InvoiceSettingsForm.php:189-191 | with start number `i`, every generator's first number is `i + 1`: entering 1 makes 2 the first invoice |
| CorrectedService.Shifted | src/InvoiceNumberGenerationService.php:100-103 | the corrected pass: the candidate counter moved on by `j`, same period, carrying its formatted value |
| CorrectedService.GenerateAndSetInvoiceNumber | src/InvoiceNumberGenerationService.php:76-109 | same failures; the issued number is the first unused one counting up by one from the generated candidate, and is the one stored |
| CorrectedService.RolloverCollisionClears | src/InvoiceNumberGenerationService.php:97-104 | the rolled-over monthly counter now gets past "1" and issues "2" |
| CorrectedService.RetryTakesNextFreeNumber | src/InvoiceNumberGenerationService.php:100-101 | the infinite counter at 5 meeting "6" now issues "7" |

## Left out

- GenerationService.IsPhpEmpty: states nothing for `OtherValue`, which stands for every value that is neither NULL, an integer nor an `InvoiceNumber`. Some of those are empty in PHP and some are not, and either way the slot loads as NULL.
- The lock (`InvoiceNumberGenerationService.php:82-84`, `:107`): the model is one call at a time, so there is no concurrency.
- The uniqueness query (`InvoiceNumberGenerationService.php:97-99`) becomes the set `taken` of invoice numbers in use. The query names table `{invoice}`, while the invoice entity's base table is `commerce_invoice`. That is a database matter outside this model.
- The key/value store and the configuration objects become the parameters `stored`, `generatorId` and `Settings`. The formatter reads `commerce_order_invoice.settings` and the service reads `commerce_invoice.settings`, so the formatter's settings are a separate value.
- The clock: `date('Y')` and `date('m')` become one `Period` per call. The source reads the clock on every `generate` call, so a call straddling midnight at a month end is not modelled.
- Plugin discovery, caching and the annotation parser are left out. The manager is modelled as the fixed set of four plugins and their annotations.
- `parent::processDefinition` (defaults merging) is left out: its code is not part of this model.
- The `InvoiceNumber` class and its methods are left out as code: it is not part of this model, and it appears as a datatype.
- Invoice entities, forms, access control and listing are left out.
- PHP integer overflow of the counter is left out: counters are unbounded.
- The loose comparison of year and month strings against stored values is left out: years and months are naturals.
- GenerationService.GenerateAndSetInvoiceNumber: the source loop has no bound. The model stops after `maxRetries` passes and returns `GaveUp`. `FreshCollisionNeverClears` shows when the source loop never ends.
- CorrectedService.GenerateAndSetInvoiceNumber: bounded by `maxRetries` in the same way.
- One `InvoiceNumber` class is assumed. The source mixes two namespaces. `InvoiceNumberFormatter.php:3`, `InfiniteInvoiceNumberGenerator.php:3-5` and `InvoiceNumberGeneratorInterface.php:3-5` use `Drupal\commerce_order_invoice`. The service, the generator base class and the other three generators use `Drupal\commerce_invoice`. Read literally, `instanceof InvoiceNumber` at `InvoiceNumberGenerationService.php:87` would never accept a number built by the Infinite generator. `LoadLastNumber` and the Infinite continuation rest on the two names denoting the same class.
- GeneratorManager.ProcessDefinition: definitions are maps from strings to strings. In the source, `label = @Translation(...)` gives a translatable markup object, and PHP's `empty()` is false for any object. So `@Translation("")` passes `InvoiceNumberGeneratorManager.php:45`, while the model, reading the label as "", rejects it.
- CorrectedService.LoadLastNumber: a start number of 0 or less still loads as no last number. The form stores the start number only when it is truthy, and a negative start is not described anywhere.

## Findings

| source | as written | input that shows it | evidently intended | confidence | as-written member | corrected member |
|---|---|---|---|---|---|---|
| src/InvoiceNumberGenerationService.php:100-101 | after `increment()` the loop calls `generate($last_order_number)` again, so a candidate that is the last object moves on by two per pass | Infinite at 5 with an invoice "6" and pattern "{invoice_number}": issues "8", and "7" stays unused | each pass moves the candidate on by one and formats it again | not executed | GenerationService.RetrySkipsFreeNumber | CorrectedService.GenerateAndSetInvoiceNumber |
| src/InvoiceNumberGenerationService.php:100-101 | the same call rebuilds a freshly generated candidate identically, so the loop never ends | Monthly at 5 in January 2024, run in February 2024 with pattern "{invoice_number}" and an invoice "1": loops forever | each pass moves the candidate on by one, so the loop ends at the first free number | not executed | GenerationService.RolloverCollisionLoopsForever | CorrectedService.GenerateAndSetInvoiceNumber |
| src/InvoiceNumberGenerationService.php:97-99 | the loop tests `fetchField()` for PHP truth, so a matching invoice numbered "0" or "" reads as free | pattern "0", or a pattern rendering "", while an invoice with that number exists: the same number is issued again | any existing invoice with the number is a collision | not executed | GenerationService.ZeroIsNeverACollision | CorrectedService.GenerateAndSetInvoiceNumber |
| src/Plugin/Commerce/InvoiceNumberGenerator/MonthlyNoResetInvoiceNumberGenerator.php:26-28 | with no last number it calls `getIncrementNumber()` on NULL | the first invoice ever, with Monthly no reset configured: a fatal error | a fresh number 1, as the generator interface promises for NULL | not executed | Generators.MonthlyNoResetFailsWithoutLastNumber | Generators.GenerateMonthlyNoResetCorrected |
| src/InvoiceNumberGenerationService.php:87-89 | the integer start number the settings form writes into the slot is not an `InvoiceNumber`, so it is discarded and numbering starts at 1 | start number 100 entered before the first invoice, Infinite generator: the first invoice is 1 | the first invoice is the number after the start number, as the form's help text at `Form/InvoiceSettingsForm.php:189-191` says | not executed | GenerationService.StartNumberIsIgnored | CorrectedService.StartNumberSeedsCounter |

=== FILE: corrected_service.dfy ===
/** The retry loop of `generateAndSetInvoiceNumber` as its comments describe
    it: while the formatted candidate is already the number of an invoice,
    move the candidate's counter on by one and format it again.  The
    candidate is never handed back to the generator, and any stored
    invoice number counts as a collision, "0" and "" included.

    The start number the settings form stores is read as the settings form
    describes it: the number before the first invoice.  Plugin lookup and
    the first generation are the ones of `GenerationService`. */
module CorrectedService {
  import opened Wrappers
  import opened InvoiceNumbers
  import opened Generators
  import opened GeneratorManager
  import GenerationService
  import DecimalText

  /** Lines 86-89 with the start number honoured: a positive integer in
      the slot is a counter in the current period, so the next number is
      the one after it.  Any other value loads as before. */
  function LoadLastNumber(stored: GenerationService.StoredValue, now: Period): (r: Option<InvoiceNumber>)
    ensures stored.IntValue? && stored.i > 0 ==> r == Some(NewNumber(stored.i, now.year, now.month))
    ensures !(stored.IntValue? && stored.i > 0) ==> r == GenerationService.LoadLastNumber(stored)
  {
    match stored
    case IntValue(i) => if i > 0 then Some(NewNumber(i, now.year, now.month)) else None
    case _ => GenerationService.LoadLastNumber(stored)
  }

  /** Every generator then continues from the start number: entering 1
      makes 2 the first invoice. */
  lemma StartNumberSeedsCounter(g: Generator, i: int, now: Period)
    requires i > 0
    ensures var last := LoadLastNumber(GenerationService.IntValue(i), now);
            CanGenerate(g, last) && Generate(g, last, now).value.number == NewNumber(i + 1, now.year, now.month)
  {
    var last := LoadLastNumber(GenerationService.IntValue(i), now);
    assert InPeriod(g, last.value, now);
  }

  /** The first candidate moved on by `j` passes of the loop body, with the
      value it is formatted to recorded on it. */
  function Shifted(first: InvoiceNumber, format: GenerationService.NumberFormat, j: nat): (r: InvoiceNumber)
    ensures r.increment == first.increment + j
    ensures r.year == first.year && r.month == first.month
    ensures r.value == Some(GenerationService.Rendered(format, r))
  {
    var bumped := first.(increment := first.increment + j);
    SetValue(bumped, GenerationService.Rendered(format, bumped))
  }

  /** The loop test: an invoice already carries this number. */
  predicate Taken(formatted: string, taken: set<string>) {
    formatted in taken
  }

  /** The first candidate is formatted by `Attempt`, so it is its own
      zero-th shift. */
  lemma FirstIsShiftedByZero(g: Generator, last: Option<InvoiceNumber>, now: Period,
                             format: GenerationService.NumberFormat)
    requires CanGenerate(g, last)
    ensures var first := GenerationService.Attempt(g, last, now, format).candidate;
            Shifted(first, format, 0) == first
  {
  }

  /** `generateAndSetInvoiceNumber()` with the corrected loop.  The number
      issued is the first free one at or after the generated candidate, in
      steps of one, and the one persisted is that candidate. */
  method GenerateAndSetInvoiceNumber(generatorId: string, format: GenerationService.NumberFormat,
                                     stored: GenerationService.StoredValue, now: Period,
                                     taken: set<string>, maxRetries: nat)
    returns (outcome: GenerationService.Outcome, writes: seq<InvoiceNumber>)
    ensures outcome == GenerationService.Failed(GenerationService.UnknownGenerator(PluginNotFound(generatorId)))
            <==> CreateInstance(generatorId).Failure?
    ensures CreateInstance(generatorId).Success? ==>
              (outcome == GenerationService.Failed(GenerationService.GeneratorFailed(NullLastNumber))
               <==> !CanGenerate(CreateInstance(generatorId).value, LoadLastNumber(stored, now)))
    ensures outcome.Failed? ==>
              outcome.error == GenerationService.UnknownGenerator(PluginNotFound(generatorId))
              || outcome.error == GenerationService.GeneratorFailed(NullLastNumber)
    ensures outcome.Issued? <==> |writes| == 1
    ensures !outcome.Issued? ==> writes == []
    ensures outcome.Issued? ==> !Taken(outcome.formatted, taken) && outcome.retries <= maxRetries
    ensures outcome.Issued? ==> writes[0].value == Some(outcome.formatted)
    ensures outcome.Issued? || outcome.GaveUp? ==>
              var g := CreateInstance(generatorId).value;
              var last := LoadLastNumber(stored, now);
              CanGenerate(g, last) &&
              var first := GenerationService.Attempt(g, last, now, format).candidate;
              (outcome.Issued? ==>
                 writes[0] == Shifted(first, format, outcome.retries)
                 && forall j :: 0 <= j < outcome.retries ==> Taken(Shifted(first, format, j).value.value, taken))
              && (!Taken(first.value.value, taken) ==> outcome == GenerationService.Issued(first.value.value, 0))
              && (outcome.GaveUp? ==>
                    forall j :: 0 <= j <= maxRetries ==> Taken(Shifted(first, format, j).value.value, taken))
  {
    writes := [];
    var instance := CreateInstance(generatorId);
    if instance.Failure? {
      return GenerationService.Failed(GenerationService.UnknownGenerator(instance.error)), writes;
    }
    var g := instance.value;
    var last := LoadLastNumber(stored, now);
    if !CanGenerate(g, last) {
      return GenerationService.Failed(GenerationService.GeneratorFailed(NullLastNumber)), writes;
    }
    var first := GenerationService.Attempt(g, last, now, format).candidate;
    FirstIsShiftedByZero(g, last, now, format);
    var candidate := first;
    var formatted := first.value.value;
    var k := 0;
    while Taken(formatted, taken) && k < maxRetries
      invariant k <= maxRetries
      invariant candidate == Shifted(first, format, k)
      invariant formatted == candidate.value.value
      invariant forall j :: 0 <= j < k ==> Taken(Shifted(first, format, j).value.value, taken)
      decreases maxRetries - k
    {
      candidate := Increment(candidate);
      formatted := GenerationService.Rendered(format, candidate);
      candidate := SetValue(candidate, formatted);
      k := k + 1;
    }
    if Taken(formatted, taken) {
      return GenerationService.GaveUp, writes;
    }
    writes := writes + [candidate];
    outcome := GenerationService.Issued(formatted, k);
  }

  /** The rolled-over monthly counter of `GenerationService` now gets past
      the existing invoice "1" and issues "2". */
  lemma RolloverCollisionClears()
    ensures var first := GenerationService.Attempt(Monthly, Some(NewNumber(5, 2024, 1)), Period(2024, 2),
                                                   GenerationService.BareFormat()).candidate;
            first.value == Some("1")
            && Shifted(first, GenerationService.BareFormat(), 1).value == Some("2")
            && !Taken("2", {"1"})
  {
    var first := GenerationService.Attempt(Monthly, Some(NewNumber(5, 2024, 1)), Period(2024, 2),
                                           GenerationService.BareFormat()).candidate;
    GenerationService.BareNumberFormat(first);
    assert DecimalText.Decimal(1) == "1";
    var second := Shifted(first, GenerationService.BareFormat(), 1);
    GenerationService.BareNumberFormat(second);
    assert DecimalText.Decimal(2) == "2";
  }

  /** The infinite counter at 5 with "6" taken now issues "7": the next
      counter, not the one after it. */
  lemma RetryTakesNextFreeNumber()
    ensures var first := GenerationService.Attempt(Infinite, Some(NewNumber(5, 2024, 1)), Period(2024, 2),
                                                   GenerationService.BareFormat()).candidate;
            first.value == Some("6")
            && Shifted(first, GenerationService.BareFormat(), 1).value == Some("7")
  {
    var first := GenerationService.Attempt(Infinite, Some(NewNumber(5, 2024, 1)), Period(2024, 2),
                                           GenerationService.BareFormat()).candidate;
    GenerationService.BareNumberFormat(first);
    assert DecimalText.Decimal(6) == "6";
    var second := Shifted(first, GenerationService.BareFormat(), 1);
    GenerationService.BareNumberFormat(second);
    assert DecimalText.Decimal(7) == "7";
  }
}

=== FILE: decimal_text.dfy ===
/** Decimal text of non-negative integers, as PHP's `(string)` cast writes
    it, and the zero padding `str_pad($s, $width, '0', STR_PAD_LEFT)`
    applies.  `ParseDecimal` is the reading direction, used to state that
    both are lossless. */
module DecimalText {

  predicate IsDigit(c: char) {
    '0' <= c <= '9'
  }

  predicate AllDigits(s: string) {
    forall i :: 0 <= i < |s| ==> IsDigit(s[i])
  }

  /** Decimal text without superfluous leading zeros: what `(string) $n`
      produces for an integer `$n >= 0`. */
  predicate Canonical(s: string) {
    |s| >= 1 && AllDigits(s) && (s[0] == '0' ==> |s| == 1)
  }

  function DigitChar(d: nat): (c: char)
    requires d < 10
    ensures IsDigit(c)
  {
    ('0' as int + d) as char
  }

  function DigitValue(c: char): (d: nat)
    requires IsDigit(c)
    ensures d < 10
  {
    c as int - '0' as int
  }

  /** `(string) $n` for `$n >= 0`. */
  function Decimal(n: nat): (s: string)
    ensures Canonical(s)
    ensures n >= 10 ==> |s| >= 2
    decreases n
  {
    if n < 10 then [DigitChar(n)] else Decimal(n / 10) + [DigitChar(n % 10)]
  }

  /** The value of a string of decimal digits; leading zeros are allowed. */
  function ParseDecimal(s: string): (n: nat)
    requires AllDigits(s)
  {
    if s == [] then 0 else 10 * ParseDecimal(s[..|s| - 1]) + DigitValue(s[|s| - 1])
  }

  /** A run of `k` zero characters. */
  function Zeros(k: nat): (z: string)
    ensures |z| == k
    ensures forall i :: 0 <= i < k ==> z[i] == '0'
  {
    if k == 0 then [] else ['0'] + Zeros(k - 1)
  }

  /** `str_pad($s, $width, '0', STR_PAD_LEFT)`: left-pads with '0' up to
      `width` characters and never shortens. */
  function PadWithZeros(s: string, width: int): (r: string)
    ensures |r| == if width <= |s| then |s| else width
    ensures r == Zeros(|r| - |s|) + s
  {
    if width <= |s| then s else Zeros(width - |s|) + s
  }

  /** Reading back the decimal text gives the number. */
  lemma {:induction false} ParseDecimalOfDecimal(n: nat)
    ensures ParseDecimal(Decimal(n)) == n
    decreases n
  {
    if n >= 10 {
      var s := Decimal(n);
      assert s[..|s| - 1] == Decimal(n / 10);
      ParseDecimalOfDecimal(n / 10);
    }
  }

  /** A canonical digit string with at least two digits is worth ten or more. */
  lemma {:induction false} ParseDecimalOfLongCanonical(s: string)
    requires Canonical(s) && |s| >= 2
    ensures ParseDecimal(s) >= 10
    decreases |s|
  {
    var t := s[..|s| - 1];
    assert t[0] == s[0];
    if |t| >= 2 {
      ParseDecimalOfLongCanonical(t);
    } else {
      assert ParseDecimal(t) == DigitValue(t[0]) by {
        assert t[..0] == [];
      }
    }
  }

  /** Writing back a canonical digit string gives the same string. */
  lemma {:induction false} DecimalOfParseDecimal(s: string)
    requires Canonical(s)
    ensures Decimal(ParseDecimal(s)) == s
    decreases |s|
  {
    if |s| == 1 {
      assert s[..0] == [];
      assert ParseDecimal(s) == DigitValue(s[0]);
    } else {
      var t := s[..|s| - 1];
      assert t[0] == s[0];
      assert Canonical(t);
      ParseDecimalOfLongCanonical(s);
      DecimalOfParseDecimal(t);
      assert s == t + [s[|s| - 1]];
    }
  }

  function Pow10(k: nat): (p: nat)
    ensures p >= 1
  {
    if k == 0 then 1 else 10 * Pow10(k - 1)
  }

  /** A number below `10^k` is written with at most `k` digits. */
  lemma {:induction false} DecimalFitsWidth(n: nat, k: nat)
    requires k >= 1 && n < Pow10(k)
    ensures |Decimal(n)| <= k
    decreases k
  {
    assert Pow10(1) == 10;
    if n >= 10 {
      assert n / 10 < Pow10(k - 1);
      DecimalFitsWidth(n / 10, k - 1);
    }
  }

  /** `DecimalFitsWidth` for any number. */
  lemma DecimalWidthAtMost(n: nat, k: nat)
    ensures k >= 1 && n < Pow10(k) ==> |Decimal(n)| <= k
  {
    if k >= 1 && n < Pow10(k) {
      DecimalFitsWidth(n, k);
    }
  }

  /** Different numbers have different decimal texts. */
  lemma DecimalInjective(m: nat, n: nat)
    requires Decimal(m) == Decimal(n)
    ensures m == n
  {
    ParseDecimalOfDecimal(m);
    ParseDecimalOfDecimal(n);
  }

  /** Leading zeros do not change the value of a digit string. */
  lemma {:induction false} ParseDecimalIgnoresLeadingZeros(k: nat, s: string)
    requires AllDigits(s)
    ensures AllDigits(Zeros(k) + s)
    ensures ParseDecimal(Zeros(k) + s) == ParseDecimal(s)
    decreases |s|, k
  {
    var z := Zeros(k);
    if s == [] {
      assert z + s == z;
      if k > 0 {
        assert z[..|z| - 1] == Zeros(k - 1);
        ParseDecimalIgnoresLeadingZeros(k - 1, s);
        assert Zeros(k - 1) + s == Zeros(k - 1);
      }
    } else {
      var t := s[..|s| - 1];
      assert (z + s)[..|z + s| - 1] == z + t;
      ParseDecimalIgnoresLeadingZeros(k, t);
    }
  }
}

=== FILE: formatter.dfy ===
/** `InvoiceNumberFormatter::format`: zero-pads the counter and substitutes
    the three placeholders of the pattern.

    The source substitutes with one `str_replace` call over arrays, which
    rewrites the whole pattern three times in turn: first every
    `{invoice_number}`, then every `{year}`, then every `{month}`.
    `ReplaceAll` models one such pass.  `Render` is an independent
    single-pass reading of the pattern, and `Format`'s contract says the
    three passes agree with it. */
module Formatter {
  import opened Wrappers
  import opened DecimalText
  import opened InvoiceNumbers

  const InvoiceNumberPlaceholder: string := "{invoice_number}"
  const YearPlaceholder: string := "{year}"
  const MonthPlaceholder: string := "{month}"

  /** The values stored under the formatter's own configuration object;
      `None` is a key that is not set there. */
  datatype Settings = Settings(padding: Option<int>, pattern: Option<string>)

  /** One `str_replace` pass: every non-overlapping occurrence of `p`, found
      left to right, becomes `r`; the inserted text is not searched again. */
  function ReplaceAll(s: string, p: string, r: string): (t: string)
    requires |p| > 0
    ensures p <= s ==> r <= t
    decreases |s|
  {
    if |s| == 0 then []
    else if p <= s then r + ReplaceAll(s[|p|..], p, r)
    else [s[0]] + ReplaceAll(s[1..], p, r)
  }

  /** `p` starts somewhere in `s`. */
  predicate Occurs(p: string, s: string) {
    exists i :: 0 <= i < |s| && p <= s[i..]
  }

  /** A subject in which the search string never starts comes back
      unchanged. */
  lemma {:induction false} ReplaceAllWithoutOccurrence(s: string, p: string, r: string)
    requires |p| > 0
    ensures !Occurs(p, s) ==> ReplaceAll(s, p, r) == s
    decreases |s|
  {
    if |s| > 0 && !Occurs(p, s) {
      assert !(p <= s[0..]);
      assert s[0..] == s;
      OccursInTail(p, s);
      ReplaceAllWithoutOccurrence(s[1..], p, r);
    }
  }

  lemma OccursInTail(p: string, s: string)
    requires |s| > 0
    ensures Occurs(p, s[1..]) ==> Occurs(p, s)
  {
    if Occurs(p, s[1..]) {
      var i :| 0 <= i < |s[1..]| && p <= s[1..][i..];
      assert s[1..][i..] == s[i + 1..];
    }
  }

  /** The placeholder `s` starts with, if any. */
  function LeadingPlaceholder(s: string): (r: Option<string>)
    ensures r.Some? ==> r.value <= s && |r.value| > 0
    ensures r.Some? ==> r.value in [InvoiceNumberPlaceholder, YearPlaceholder, MonthPlaceholder]
  {
    if InvoiceNumberPlaceholder <= s then Some(InvoiceNumberPlaceholder)
    else if YearPlaceholder <= s then Some(YearPlaceholder)
    else if MonthPlaceholder <= s then Some(MonthPlaceholder)
    else None
  }

  /** The text a placeholder stands for. */
  function TextFor(placeholder: string, number: string, year: string, month: string): (t: string) {
    if placeholder == InvoiceNumberPlaceholder then number
    else if placeholder == YearPlaceholder then year
    else month
  }

  /** Reference reading of a pattern: scan once, left to right; at each
      position either a whole placeholder is replaced by its text or one
      character is copied. */
  function Render(s: string, number: string, year: string, month: string): (t: string)
    decreases |s|
  {
    if |s| == 0 then []
    else match LeadingPlaceholder(s)
      case Some(q) => TextFor(q, number, year, month) + Render(s[|q|..], number, year, month)
      case None => [s[0]] + Render(s[1..], number, year, month)
  }

  /** The text that replaces `{invoice_number}`: the decimal counter, padded
      with leading zeros to `padding` characters when `padding` is positive. */
  function NumberText(increment: nat, padding: int): (t: string)
    ensures padding <= 0 ==> t == Decimal(increment)
    ensures padding > 0 ==> |t| == (if padding <= |Decimal(increment)| then |Decimal(increment)| else padding)
    ensures t == Zeros(|t| - |Decimal(increment)|) + Decimal(increment)
    ensures AllDigits(t) && |t| >= 1
  {
    var digits := Decimal(increment);
    if padding > 0 then PadWithZeros(digits, padding) else digits
  }

  /** The text that replaces `{year}`.  Generators store the string
      `date('Y')` on the value object: the year, in four digits. */
  function YearText(year: nat): (t: string)
    ensures AllDigits(t) && |t| >= 4
    ensures ParseDecimal(t) == year
    ensures year < 10000 ==> |t| == 4
  {
    var digits := Decimal(year);
    ParseDecimalIgnoresLeadingZeros(|PadWithZeros(digits, 4)| - |digits|, digits);
    ParseDecimalOfDecimal(year);
    assert Pow10(4) == 10000;
    DecimalWidthAtMost(year, 4);
    PadWithZeros(digits, 4)
  }

  /** The text that replaces `{month}`.  Generators store the string
      `date('m')` on the value object: the month, in two digits. */
  function MonthText(month: nat): (t: string)
    ensures AllDigits(t) && |t| >= 2
    ensures ParseDecimal(t) == month
    ensures month < 100 ==> |t| == 2
  {
    var digits := Decimal(month);
    ParseDecimalIgnoresLeadingZeros(|PadWithZeros(digits, 2)| - |digits|, digits);
    ParseDecimalOfDecimal(month);
    assert Pow10(2) == 100;
    DecimalWidthAtMost(month, 2);
    PadWithZeros(digits, 2)
  }

  /** `(int) (NULL === $number_padding ? <configured> : $number_padding)`;
      an unset configuration value casts to 0. */
  function EffectivePadding(padding: Option<int>, settings: Settings): (p: int)
    ensures padding.Some? ==> p == padding.value
    ensures padding.None? && settings.padding.Some? ==> p == settings.padding.value
    ensures padding.None? && settings.padding.None? ==> p == 0
  {
    match padding
    case Some(p) => p
    case None => settings.padding.GetOr(0)
  }

  /** `NULL === $pattern ? <configured> : $pattern`; `str_replace` turns an
      unset (NULL) subject into the empty string. */
  function EffectivePattern(pattern: Option<string>, settings: Settings): (p: string)
    ensures pattern.Some? ==> p == pattern.value
    ensures pattern.None? && settings.pattern.Some? ==> p == settings.pattern.value
    ensures pattern.None? && settings.pattern.None? ==> p == ""
  {
    match pattern
    case Some(p) => p
    case None => settings.pattern.GetOr("")
  }

  /** `format($number, $padding, $pattern)`.  The three `str_replace` passes
      read the pattern exactly as the single scan `Render` does. */
  function Format(number: InvoiceNumber, padding: Option<int>, pattern: Option<string>, settings: Settings): (r: string)
    ensures r == Render(EffectivePattern(pattern, settings),
                        NumberText(number.increment, EffectivePadding(padding, settings)),
                        YearText(number.year), MonthText(number.month))
  {
    var numberText := NumberText(number.increment, EffectivePadding(padding, settings));
    var pat := EffectivePattern(pattern, settings);
    SubstitutionIsSinglePass(pat, numberText, YearText(number.year), MonthText(number.month));
    Passes(pat, numberText, YearText(number.year), MonthText(number.month))
  }

  // ---------------------------------------------------------------------
  // Facts about one replacement pass

  predicate NoOpenBrace(s: string) {
    forall i :: 0 <= i < |s| ==> s[i] != '{'
  }

  predicate NoDigit(s: string) {
    forall i :: 0 <= i < |s| ==> !IsDigit(s[i])
  }

  lemma DigitsHaveNoOpenBrace(s: string)
    requires AllDigits(s)
    ensures NoOpenBrace(s)
  {
    forall i | 0 <= i < |s| ensures s[i] != '{' {
      assert IsDigit(s[i]);
    }
  }

  /** A prefix free of the pattern's first character is copied unchanged. */
  lemma {:induction false} ReplaceAllCopiesPrefix(a: string, t: string, p: string, r: string)
    requires |p| > 0
    requires forall i :: 0 <= i < |a| ==> a[i] != p[0]
    ensures ReplaceAll(a + t, p, r) == a + ReplaceAll(t, p, r)
    decreases |a|
  {
    if |a| > 0 {
      var s := a + t;
      assert s[0] == a[0];
      assert !(p <= s);
      assert s[1..] == a[1..] + t;
      ReplaceAllCopiesPrefix(a[1..], t, p, r);
      assert s == [a[0]] + s[1..];
      assert a == [a[0]] + a[1..];
    } else {
      assert a + t == t;
    }
  }

  /** The first character a pass writes. */
  lemma ReplaceAllHead(t: string, p: string, r: string)
    requires |p| > 0 && |t| > 0 && |r| > 0
    ensures |ReplaceAll(t, p, r)| > 0
    ensures ReplaceAll(t, p, r)[0] == if p <= t then r[0] else t[0]
  {
  }

  /** A pass that inserts only digits cannot make a digit-free prefix
      appear: if the output starts with `q`, so did the input. */
  lemma {:induction false} ReplaceAllReflectsPrefix(t: string, p: string, r: string, q: string)
    requires |p| > 0 && |r| > 0 && AllDigits(r) && NoDigit(q)
    ensures q <= ReplaceAll(t, p, r) ==> q <= t
    decreases |t|
  {
    if |q| > 0 && |t| > 0 {
      ReplaceAllHead(t, p, r);
      if q <= ReplaceAll(t, p, r) {
        assert !IsDigit(q[0]) && IsDigit(r[0]);
        assert !(p <= t);
        assert ReplaceAll(t, p, r) == [t[0]] + ReplaceAll(t[1..], p, r);
        ReplaceAllReflectsPrefix(t[1..], p, r, q[1..]);
        assert q == [q[0]] + q[1..];
        assert t == [t[0]] + t[1..];
      }
    }
  }

  /** The three passes of `format`, in the order `str_replace` applies them. */
  function Passes(s: string, number: string, year: string, month: string): (t: string)
    ensures PlaceholderFree(s) ==> t == s
  {
    PlaceholderFreeHasNoOccurrence(s);
    ReplaceAllWithoutOccurrence(s, InvoiceNumberPlaceholder, number);
    ReplaceAllWithoutOccurrence(s, YearPlaceholder, year);
    ReplaceAllWithoutOccurrence(s, MonthPlaceholder, month);
    ReplaceAll(ReplaceAll(ReplaceAll(s, InvoiceNumberPlaceholder, number),
                          YearPlaceholder, year), MonthPlaceholder, month)
  }

  /** The substituted texts: non-empty digit strings. */
  predicate Texts(number: string, year: string, month: string) {
    AllDigits(number) && |number| > 0 && AllDigits(year) && |year| > 0 && AllDigits(month) && |month| > 0
  }

  lemma PassesAtNumber(s: string, number: string, year: string, month: string)
    requires Texts(number, year, month)
    requires InvoiceNumberPlaceholder <= s
    ensures Passes(s, number, year, month) == number + Passes(s[|InvoiceNumberPlaceholder|..], number, year, month)
  {
    DigitsHaveNoOpenBrace(number);
    var x1 := ReplaceAll(s[|InvoiceNumberPlaceholder|..], InvoiceNumberPlaceholder, number);
    ReplaceAllCopiesPrefix(number, x1, YearPlaceholder, year);
    ReplaceAllCopiesPrefix(number, ReplaceAll(x1, YearPlaceholder, year), MonthPlaceholder, month);
  }

  lemma PassesAtYear(s: string, number: string, year: string, month: string)
    requires Texts(number, year, month)
    requires !(InvoiceNumberPlaceholder <= s) && YearPlaceholder <= s
    ensures Passes(s, number, year, month) == year + Passes(s[|YearPlaceholder|..], number, year, month)
  {
    DigitsHaveNoOpenBrace(year);
    var rest := s[|YearPlaceholder|..];
    assert s[1..] == "year}" + rest;
    ReplaceAllCopiesPrefix("year}", rest, InvoiceNumberPlaceholder, number);
    var x1 := ReplaceAll(rest, InvoiceNumberPlaceholder, number);
    assert ReplaceAll(s, InvoiceNumberPlaceholder, number) == YearPlaceholder + x1;
    assert (YearPlaceholder + x1)[|YearPlaceholder|..] == x1;
    ReplaceAllCopiesPrefix(year, ReplaceAll(x1, YearPlaceholder, year), MonthPlaceholder, month);
  }

  /** The first pass leaves a leading `{month}` in place. */
  lemma NumberPassKeepsMonth(rest: string, number: string)
    ensures ReplaceAll(MonthPlaceholder + rest, InvoiceNumberPlaceholder, number)
         == MonthPlaceholder + ReplaceAll(rest, InvoiceNumberPlaceholder, number)
  {
    var s := MonthPlaceholder + rest;
    assert s[1..] == "month}" + rest;
    ReplaceAllCopiesPrefix("month}", rest, InvoiceNumberPlaceholder, number);
  }

  /** The second pass leaves a leading `{month}` in place. */
  lemma YearPassKeepsMonth(rest: string, year: string)
    ensures ReplaceAll(MonthPlaceholder + rest, YearPlaceholder, year)
         == MonthPlaceholder + ReplaceAll(rest, YearPlaceholder, year)
  {
    var s := MonthPlaceholder + rest;
    assert s[1] == 'm';
    assert s[1..] == "month}" + rest;
    ReplaceAllCopiesPrefix("month}", rest, YearPlaceholder, year);
  }

  lemma PassesAtMonth(s: string, number: string, year: string, month: string)
    requires Texts(number, year, month)
    requires !(InvoiceNumberPlaceholder <= s) && !(YearPlaceholder <= s) && MonthPlaceholder <= s
    ensures Passes(s, number, year, month) == month + Passes(s[|MonthPlaceholder|..], number, year, month)
  {
    var rest := s[|MonthPlaceholder|..];
    assert s == MonthPlaceholder + rest;
    NumberPassKeepsMonth(rest, number);
    var x1 := ReplaceAll(rest, InvoiceNumberPlaceholder, number);
    YearPassKeepsMonth(x1, year);
    var x2 := ReplaceAll(x1, YearPlaceholder, year);
    assert (MonthPlaceholder + x2)[|MonthPlaceholder|..] == x2;
  }

  lemma PassesAtOther(s: string, number: string, year: string, month: string)
    requires Texts(number, year, month)
    requires |s| > 0 && !StartsWithPlaceholder(s)
    ensures Passes(s, number, year, month) == [s[0]] + Passes(s[1..], number, year, month)
  {
    var x1 := ReplaceAll(s[1..], InvoiceNumberPlaceholder, number);
    var y1 := ReplaceAll(s, InvoiceNumberPlaceholder, number);
    assert y1 == [s[0]] + x1;
    ReplaceAllReflectsPrefix(s, InvoiceNumberPlaceholder, number, YearPlaceholder);
    var x2 := ReplaceAll(x1, YearPlaceholder, year);
    var y2 := ReplaceAll(y1, YearPlaceholder, year);
    assert y1[1..] == x1;
    assert y2 == [s[0]] + x2;
    ReplaceAllReflectsPrefix(y1, YearPlaceholder, year, MonthPlaceholder);
    ReplaceAllReflectsPrefix(s, InvoiceNumberPlaceholder, number, MonthPlaceholder);
    assert y2[1..] == x2;
  }

  /** The three `str_replace` passes of `format` agree with `Render`.  The
      placeholders each hold one '{', in front, and no digit, and the
      texts substituted for them are digits, so no pass can create, hide
      or split an occurrence another pass looks for. */
  lemma {:induction false} SubstitutionIsSinglePass(s: string, number: string, year: string, month: string)
    requires Texts(number, year, month)
    ensures Passes(s, number, year, month) == Render(s, number, year, month)
    decreases |s|
  {
    if |s| > 0 {
      match LeadingPlaceholder(s)
      case Some(q) =>
        if q == InvoiceNumberPlaceholder {
          PassesAtNumber(s, number, year, month);
        } else if q == YearPlaceholder {
          PassesAtYear(s, number, year, month);
        } else {
          PassesAtMonth(s, number, year, month);
        }
        SubstitutionIsSinglePass(s[|q|..], number, year, month);
      case None =>
        PassesAtOther(s, number, year, month);
        SubstitutionIsSinglePass(s[1..], number, year, month);
    }
  }

  // ---------------------------------------------------------------------
  // What Render, and so Format, does with a pattern

  predicate StartsWithPlaceholder(s: string) {
    LeadingPlaceholder(s).Some?
  }

  /** A text without placeholders contains none of the three search
      strings of `format`. */
  lemma PlaceholderFreeHasNoOccurrence(s: string)
    ensures PlaceholderFree(s) ==>
              !Occurs(InvoiceNumberPlaceholder, s) && !Occurs(YearPlaceholder, s) && !Occurs(MonthPlaceholder, s)
  {
    if PlaceholderFree(s) {
      forall i | 0 <= i < |s|
        ensures !(InvoiceNumberPlaceholder <= s[i..]) && !(YearPlaceholder <= s[i..]) && !(MonthPlaceholder <= s[i..])
      {
        assert !StartsWithPlaceholder(s[i..]);
      }
    }
  }

  /** No placeholder starts anywhere in `s`. */
  predicate PlaceholderFree(s: string) {
    forall i :: 0 <= i < |s| ==> !StartsWithPlaceholder(s[i..])
  }

  /** A pattern without placeholders is copied verbatim, whatever the number:
      the counter is silently dropped. */
  lemma {:induction false} RenderPlaceholderFree(s: string, number: string, year: string, month: string)
    requires PlaceholderFree(s)
    ensures Render(s, number, year, month) == s
    decreases |s|
  {
    if |s| > 0 {
      assert s[0..] == s;
      assert PlaceholderFree(s[1..]) by {
        forall i | 0 <= i < |s[1..]| ensures !StartsWithPlaceholder(s[1..][i..]) {
          assert s[1..][i..] == s[i + 1..];
        }
      }
      RenderPlaceholderFree(s[1..], number, year, month);
    }
  }

  /** Each placeholder holds its only '{' in front. */
  predicate BraceOnlyInFront(q: string) {
    |q| > 0 && q[0] == '{' && forall i :: 1 <= i < |q| ==> q[i] != '{'
  }

  lemma PlaceholdersHaveBraceOnlyInFront()
    ensures BraceOnlyInFront(InvoiceNumberPlaceholder)
    ensures BraceOnlyInFront(YearPlaceholder)
    ensures BraceOnlyInFront(MonthPlaceholder)
  {
  }

  /** A placeholder at the front of `a + t`, where `t` starts with '{',
      lies wholly inside `a`. */
  lemma PlaceholderStaysInside(q: string, a: string, t: string)
    requires BraceOnlyInFront(q)
    requires |a| > 0 && (|t| == 0 || t[0] == '{')
    ensures q <= a + t <==> q <= a
  {
    if |q| > |a| && |t| > 0 {
      assert q[|a|] != '{';
      assert (a + t)[|a|] == '{';
    }
    if |q| <= |a| {
      assert a == (a + t)[..|a|];
    }
  }

  /** In front of a '{' the leading placeholder is decided by `a` alone. */
  lemma LeadingPlaceholderOfConcat(a: string, t: string)
    requires |a| > 0 && (|t| == 0 || t[0] == '{')
    ensures LeadingPlaceholder(a + t) == LeadingPlaceholder(a)
  {
    PlaceholdersHaveBraceOnlyInFront();
    PlaceholderStaysInside(InvoiceNumberPlaceholder, a, t);
    PlaceholderStaysInside(YearPlaceholder, a, t);
    PlaceholderStaysInside(MonthPlaceholder, a, t);
  }

  /** Rendering can be split in front of any '{': no placeholder reaches
      across it. */
  lemma {:induction false} RenderSplitsAtBrace(a: string, t: string, number: string, year: string, month: string)
    requires |t| == 0 || t[0] == '{'
    ensures Render(a + t, number, year, month) == Render(a, number, year, month) + Render(t, number, year, month)
    decreases |a|
  {
    var s := a + t;
    if |a| == 0 {
      assert s == t;
    } else {
      LeadingPlaceholderOfConcat(a, t);
      match LeadingPlaceholder(a)
      case Some(q) =>
        assert s[|q|..] == a[|q|..] + t;
        RenderSplitsAtBrace(a[|q|..], t, number, year, month);
      case None =>
        assert s[1..] == a[1..] + t;
        RenderSplitsAtBrace(a[1..], t, number, year, month);
    }
  }

  /** A placeholder in front is recognised as itself. */
  lemma LeadingPlaceholderOfPlaceholder(q: string, after: string)
    requires q in [InvoiceNumberPlaceholder, YearPlaceholder, MonthPlaceholder]
    ensures LeadingPlaceholder(q + after) == Some(q)
  {
    var t := q + after;
    assert q <= t;
    if q == YearPlaceholder {
      assert t[1] == 'y';
    } else if q == MonthPlaceholder {
      assert t[1] == 'm';
    }
  }

  /** The scan replaces a placeholder by its text and reads the text on
      either side on its own. */
  lemma RenderReplacesEachPlaceholder(before: string, placeholder: string, after: string,
                                      number: string, year: string, month: string)
    requires placeholder in [InvoiceNumberPlaceholder, YearPlaceholder, MonthPlaceholder]
    ensures Render(before + placeholder + after, number, year, month)
         == Render(before, number, year, month) + TextFor(placeholder, number, year, month)
          + Render(after, number, year, month)
  {
    var t := placeholder + after;
    RenderSplitsAtBrace(before, t, number, year, month);
    assert before + placeholder + after == before + t;
    LeadingPlaceholderOfPlaceholder(placeholder, after);
    assert t[|placeholder|..] == after;
  }

  /** Every occurrence of a placeholder is replaced by its own text, and the
      text on either side is formatted independently. */
  lemma FormatReplacesEachPlaceholder(number: InvoiceNumber, padding: Option<int>, settings: Settings,
                                      before: string, placeholder: string, after: string)
    requires placeholder in [InvoiceNumberPlaceholder, YearPlaceholder, MonthPlaceholder]
    ensures Format(number, padding, Some(before + placeholder + after), settings)
         == Format(number, padding, Some(before), settings)
          + TextFor(placeholder, NumberText(number.increment, EffectivePadding(padding, settings)),
                    YearText(number.year), MonthText(number.month))
          + Format(number, padding, Some(after), settings)
  {
    RenderReplacesEachPlaceholder(before, placeholder, after,
                                  NumberText(number.increment, EffectivePadding(padding, settings)),
                                  YearText(number.year), MonthText(number.month));
  }

  /** A pattern without placeholders comes back unchanged, so the counter
      does not appear in the result at all. */
  lemma FormatWithoutPlaceholders(number: InvoiceNumber, padding: Option<int>, pattern: string, settings: Settings)
    requires PlaceholderFree(pattern)
    ensures Format(number, padding, Some(pattern), settings) == pattern
  {
    RenderPlaceholderFree(pattern, NumberText(number.increment, EffectivePadding(padding, settings)),
                          YearText(number.year), MonthText(number.month));
  }

  /** The padded number text reads back as the counter: padding only
      prepends zeros and never truncates. */
  lemma NumberTextReadsBack(increment: nat, padding: int)
    ensures ParseDecimal(NumberText(increment, padding)) == increment
  {
    var d := Decimal(increment);
    var t := NumberText(increment, padding);
    ParseDecimalIgnoresLeadingZeros(|t| - |d|, d);
    ParseDecimalOfDecimal(increment);
  }

  lemma NumberTextExample()
    ensures NumberText(52, 6) == "000052"
  {
    assert Decimal(52) == "52" by {
      assert Decimal(5) == "5";
    }
    assert Zeros(4) == "0000" by {
      assert Zeros(0) == [];
      assert Zeros(1) == ['0'] + Zeros(0);
      assert Zeros(2) == ['0'] + Zeros(1);
      assert Zeros(3) == ['0'] + Zeros(2);
    }
  }

  /** A pattern that is a single placeholder renders as that placeholder's
      text. */
  lemma RenderOfLonePlaceholder(placeholder: string, number: string, year: string, month: string)
    requires placeholder in [InvoiceNumberPlaceholder, YearPlaceholder, MonthPlaceholder]
    ensures Render(placeholder, number, year, month) == TextFor(placeholder, number, year, month)
  {
    LeadingPlaceholderOfPlaceholder(placeholder, "");
    assert placeholder + "" == placeholder;
    assert placeholder[|placeholder|..] == [];
  }

  /** The example of the settings form: 52 padded to 6 reads "000052". */
  lemma FormatPaddingExample(year: nat, month: nat, settings: Settings)
    ensures Format(InvoiceNumber(52, year, month, None), Some(6), Some("{invoice_number}"), settings) == "000052"
  {
    NumberTextExample();
    RenderOfLonePlaceholder(InvoiceNumberPlaceholder, NumberText(52, 6), YearText(year), MonthText(month));
  }
}

=== FILE: generation_service.dfy ===
/** `InvoiceNumberGenerationService::generateAndSetInvoiceNumber`, as the
    source writes it: load the last number, generate and format a
    candidate, retry while the formatted value is already used by an
    invoice, persist the final candidate, return its formatted value.

    The configuration, the key/value slot, the clock and the uniqueness
    query are parameters: `generatorId` is the configured plugin id,
    `stored` what the slot holds, `now` the current period and `taken` the
    invoice numbers already stored on invoices.  The injected formatter is
    the parameter `format`; it sees only the counter, year and month,
    which is all `InvoiceNumberFormatter::format` reads, and
    `ConfiguredFormat` is that formatter under given settings.  The loop of
    the source has no bound; here it runs at most `maxRetries` retries and
    reports `GaveUp` beyond that. */
module GenerationService {
  import opened Wrappers
  import opened InvoiceNumbers
  import opened Formatter
  import opened Generators
  import opened GeneratorManager

  /** What the key/value slot `last_invoice_number` can hold. */
  datatype StoredValue =
    | Unset                          // no value: get() returns NULL
    | IntValue(i: int)               // the start number the settings form stores
    | NumberValue(n: InvoiceNumber)  // a number persisted by this service
    | OtherValue                     // anything else

  /** PHP's `empty()` on a stored value: NULL and the integer 0 are empty,
      an object never is. */
  function IsPhpEmpty(v: StoredValue): (r: bool)
    ensures v.Unset? ==> r
    ensures v.IntValue? ==> (r <==> v.i == 0)
    ensures v.NumberValue? ==> !r
  {
    v.Unset? || v == IntValue(0)
  }

  /** Lines 86-89: a value that is empty or not an `InvoiceNumber` is treated
      as no last number at all. */
  function LoadLastNumber(stored: StoredValue): (r: Option<InvoiceNumber>)
    ensures r.Some? <==> stored.NumberValue?
    ensures r.Some? ==> r.value == stored.n
  {
    if IsPhpEmpty(stored) || !stored.NumberValue? then None else Some(stored.n)
  }

  /** The start number the settings form writes into the slot is a plain
      integer, so it is discarded like an empty slot. */
  lemma StartNumberIsIgnored(i: int)
    ensures LoadLastNumber(IntValue(i)) == LoadLastNumber(Unset) == None
  {
  }

  /** The loop test of lines 97-99: `fetchField()` returns the invoice
      number of a matching invoice, and the loop tests that string for PHP
      truth, under which "" and "0" are false. */
  function Collides(formatted: string, taken: set<string>): (r: bool)
    ensures r ==> formatted in taken
    ensures formatted == "" || formatted == "0" ==> !r
    ensures formatted in taken && formatted != "" && formatted != "0" ==> r
  {
    formatted in taken && formatted != "" && formatted != "0"
  }

  /** The injected formatter, called as `format($invoice_number)`. */
  type NumberFormat = (nat, nat, nat) -> string

  function Rendered(format: NumberFormat, n: InvoiceNumber): (s: string) {
    format(n.increment, n.year, n.month)
  }

  /** `InvoiceNumberFormatter::format($number)` with padding and pattern
      taken from its configuration. */
  function ConfiguredFormat(settings: Settings): (f: NumberFormat)
    ensures forall increment: nat, year: nat, month: nat :: f(increment, year, month)
              == Render(settings.pattern.GetOr(""), NumberText(increment, settings.padding.GetOr(0)),
                        YearText(year), MonthText(month))
  {
    (increment: nat, year: nat, month: nat) => Format(InvoiceNumber(increment, year, month, None), None, None, settings)
  }

  /** The formatter configured with the pattern "{invoice_number}" and no
      padding. */
  function BareFormat(): (f: NumberFormat) {
    ConfiguredFormat(Settings(None, Some(InvoiceNumberPlaceholder)))
  }

  /** The variables of the method between statements: `$last_order_number`,
      the candidate `$invoice_number`, whether both name the same object,
      and `$invoice_number_formatted`. */
  datatype LoopState = LoopState(last: Option<InvoiceNumber>, candidate: InvoiceNumber, aliased: bool, formatted: string)

  /** Generate, format and record the value on the result: lines 91-93, and
      again 101-103.  When the generator hands back `last` itself, `last`
      sees the same changes. */
  function Attempt(g: Generator, last: Option<InvoiceNumber>, now: Period, format: NumberFormat): (s: LoopState)
    requires CanGenerate(g, last)
    ensures s.aliased <==> last.Some? && InPeriod(g, last.value, now)
    ensures s.aliased ==> s.last == Some(s.candidate)
    ensures !s.aliased ==> s.last == last
    ensures s.aliased ==> s.candidate.year == last.value.year && s.candidate.month == last.value.month
    ensures !s.aliased ==> s.candidate.year == now.year && s.candidate.month == now.month
    ensures s.candidate.increment == CarriedCounter(g, last, now) + 1
    ensures InPeriod(g, s.candidate, now)
    ensures s.formatted == Rendered(format, s.candidate)
    ensures s.candidate.value == Some(s.formatted)
  {
    var generated := Generate(g, last, now).value;
    var formatted := Rendered(format, generated.number);
    var candidate := SetValue(generated.number, formatted);
    LoopState(if generated.reusedLast then Some(candidate) else last, candidate, generated.reusedLast, formatted)
  }

  /** One pass of the loop body, lines 100-103: `increment()` on the
      candidate object, then a fresh `generate($last_order_number)`. */
  function Retry(g: Generator, s: LoopState, now: Period, format: NumberFormat): (r: LoopState)
    requires CanGenerate(g, s.last)
    ensures CanGenerate(g, r.last)
    ensures InPeriod(g, r.candidate, now) && r.formatted == Rendered(format, r.candidate)
    ensures r.candidate.value == Some(r.formatted)
    ensures !s.aliased ==> r.candidate.increment == CarriedCounter(g, s.last, now) + 1
  {
    var bumped := Increment(s.candidate);
    Attempt(g, if s.aliased then Some(bumped) else s.last, now, format)
  }

  /** The state after `k` passes of the loop body. */
  function Retries(g: Generator, first: LoopState, now: Period, format: NumberFormat, k: nat): (r: LoopState)
    requires CanGenerate(g, first.last)
    ensures CanGenerate(g, r.last)
    ensures k > 0 ==> InPeriod(g, r.candidate, now) && r.formatted == Rendered(format, r.candidate)
    ensures k > 0 ==> r.candidate.value == Some(r.formatted)
    decreases k
  {
    if k == 0 then first else Retry(g, Retries(g, first, now, format, k - 1), now, format)
  }

  datatype ServiceError = UnknownGenerator(notFound: PluginNotFound) | GeneratorFailed(error: GeneratorError)

  datatype Outcome =
    | Issued(formatted: string, retries: nat)  // the returned string, after `retries` passes of the loop
    | GaveUp                                   // still colliding after `maxRetries` passes
    | Failed(error: ServiceError)

  /** `generateAndSetInvoiceNumber()`.  `writes` lists the values written to
      the `last_invoice_number` slot, in order. */
  method GenerateAndSetInvoiceNumber(generatorId: string, format: NumberFormat, stored: StoredValue, now: Period,
                                     taken: set<string>, maxRetries: nat)
    returns (outcome: Outcome, writes: seq<InvoiceNumber>)
    ensures outcome == Failed(UnknownGenerator(PluginNotFound(generatorId))) <==> CreateInstance(generatorId).Failure?
    ensures CreateInstance(generatorId).Success? ==>
              (outcome == Failed(GeneratorFailed(NullLastNumber))
               <==> !CanGenerate(CreateInstance(generatorId).value, LoadLastNumber(stored)))
    ensures outcome.Failed? ==>
              outcome.error == UnknownGenerator(PluginNotFound(generatorId)) || outcome.error == GeneratorFailed(NullLastNumber)
    ensures outcome.Issued? <==> |writes| == 1
    ensures !outcome.Issued? ==> writes == []
    ensures outcome.Issued? ==> !Collides(outcome.formatted, taken) && outcome.retries <= maxRetries
    ensures outcome.Issued? ==> writes[0].value == Some(outcome.formatted)
    ensures outcome.Issued? || outcome.GaveUp? ==>
              var g := CreateInstance(generatorId).value;
              var last := LoadLastNumber(stored);
              CanGenerate(g, last) &&
              var first := Attempt(g, last, now, format);
              (outcome.Issued? ==>
                 writes[0] == Retries(g, first, now, format, outcome.retries).candidate
                 && outcome.formatted == Retries(g, first, now, format, outcome.retries).formatted
                 && forall j :: 0 <= j < outcome.retries ==> Collides(Retries(g, first, now, format, j).formatted, taken))
              && (!Collides(first.formatted, taken) ==> outcome == Issued(first.formatted, 0) && writes == [first.candidate])
              && (outcome.GaveUp? ==>
                    forall j :: 0 <= j <= maxRetries ==> Collides(Retries(g, first, now, format, j).formatted, taken))
  {
    writes := [];
    var instance := CreateInstance(generatorId);
    if instance.Failure? {
      return Failed(UnknownGenerator(instance.error)), writes;
    }
    var g := instance.value;
    var last := LoadLastNumber(stored);
    if !CanGenerate(g, last) {
      return Failed(GeneratorFailed(NullLastNumber)), writes;
    }
    var first := Attempt(g, last, now, format);
    var s := first;
    var k := 0;
    while Collides(s.formatted, taken) && k < maxRetries
      invariant k <= maxRetries
      invariant s == Retries(g, first, now, format, k)
      invariant forall j :: 0 <= j < k ==> Collides(Retries(g, first, now, format, j).formatted, taken)
      decreases maxRetries - k
    {
      s := Retry(g, s, now, format);
      k := k + 1;
    }
    if Collides(s.formatted, taken) {
      return GaveUp, writes;
    }
    writes := writes + [s.candidate];
    outcome := Issued(s.formatted, k);
  }

  // ---------------------------------------------------------------------
  // What the retry loop actually does

  /** One pass of the loop body on a candidate that is `last` itself: the
      object is incremented twice and stays `last`. */
  lemma AliasedRetryStep(g: Generator, s: LoopState, now: Period, format: NumberFormat)
    requires s.aliased && s.last == Some(s.candidate) && InPeriod(g, s.candidate, now)
    ensures var r := Retry(g, s, now, format);
            r.aliased && r.last == Some(r.candidate) && InPeriod(g, r.candidate, now)
            && r.candidate.increment == s.candidate.increment + 2
            && r.candidate.year == s.candidate.year && r.candidate.month == s.candidate.month
  {
    var bumped := Increment(s.candidate);
    assert Retry(g, s, now, format) == Attempt(g, Some(bumped), now, format);
    assert InPeriod(g, bumped, now);
    assert CarriedCounter(g, Some(bumped), now) == s.candidate.increment + 1;
  }

  /** A candidate that is `last` itself and within its period stays so; each
      pass of the loop body then moves the counter on by two, one from
      `increment()` and one from `generate()`. */
  lemma {:induction false} AliasedRetriesAdvanceByTwo(g: Generator, first: LoopState, now: Period, format: NumberFormat, k: nat)
    requires first.aliased && first.last == Some(first.candidate) && InPeriod(g, first.candidate, now)
    ensures var s := Retries(g, first, now, format, k);
            s.aliased && s.last == Some(s.candidate) && InPeriod(g, s.candidate, now)
            && s.candidate.increment == first.candidate.increment + 2 * k
            && s.candidate.year == first.candidate.year && s.candidate.month == first.candidate.month
    decreases k
  {
    if k > 0 {
      AliasedRetriesAdvanceByTwo(g, first, now, format, k - 1);
      var previous := Retries(g, first, now, format, k - 1);
      AliasedRetryStep(g, previous, now, format);
      var next := Retry(g, previous, now, format);
      assert Retries(g, first, now, format, k) == next;
      assert next.candidate.increment == previous.candidate.increment + 2;
      assert previous.candidate.increment == first.candidate.increment + 2 * (k - 1);
      assert next.candidate.increment == first.candidate.increment + 2 * k;
    }
  }

  /** A candidate built fresh by the generator is not `last`: its
      `increment()` is lost and `generate()` builds the same candidate
      again, on every pass. */
  lemma {:induction false} FreshRetriesRepeat(g: Generator, last: Option<InvoiceNumber>, now: Period, format: NumberFormat, k: nat)
    requires CanGenerate(g, last)
    requires !Attempt(g, last, now, format).aliased
    ensures Retries(g, Attempt(g, last, now, format), now, format, k) == Attempt(g, last, now, format)
    decreases k
  {
    if k > 0 {
      FreshRetriesRepeat(g, last, now, format, k - 1);
    }
  }

  /** So when a freshly built first candidate collides, every pass collides
      and the loop never exits. */
  lemma FreshCollisionNeverClears(g: Generator, last: Option<InvoiceNumber>, now: Period, format: NumberFormat,
                                  taken: set<string>, k: nat)
    requires CanGenerate(g, last)
    requires !Attempt(g, last, now, format).aliased
    requires Collides(Attempt(g, last, now, format).formatted, taken)
    ensures Collides(Retries(g, Attempt(g, last, now, format), now, format, k).formatted, taken)
  {
    FreshRetriesRepeat(g, last, now, format, k);
  }

  /** The pattern "{invoice_number}" renders a counter as its bare digits. */
  lemma BareNumberFormat(n: InvoiceNumber)
    ensures Rendered(BareFormat(), n) == DecimalText.Decimal(n.increment)
  {
    RenderOfLonePlaceholder(InvoiceNumberPlaceholder, NumberText(n.increment, 0), YearText(n.year), MonthText(n.month));
  }

  /** A monthly counter rolled over into February collides with an existing
      invoice "1": the loop rebuilds "1" forever. */
  lemma RolloverCollisionLoopsForever(k: nat)
    ensures var first := Attempt(Monthly, Some(NewNumber(5, 2024, 1)), Period(2024, 2), BareFormat());
            first.formatted == "1" && !first.aliased
            && Collides(Retries(Monthly, first, Period(2024, 2), BareFormat(), k).formatted, {"1"})
  {
    var last := Some(NewNumber(5, 2024, 1));
    var first := Attempt(Monthly, last, Period(2024, 2), BareFormat());
    BareNumberFormat(first.candidate);
    assert first.candidate.increment == 1;
    assert DecimalText.Decimal(1) == "1";
    FreshCollisionNeverClears(Monthly, last, Period(2024, 2), BareFormat(), {"1"}, k);
  }

  /** An infinite counter at 5 meets an existing invoice "6": the retry
      issues "8", and the free number "7" is skipped. */
  lemma RetrySkipsFreeNumber()
    ensures var first := Attempt(Infinite, Some(NewNumber(5, 2024, 1)), Period(2024, 2), BareFormat());
            first.formatted == "6" && Collides(first.formatted, {"6"})
            && Retries(Infinite, first, Period(2024, 2), BareFormat(), 1).formatted == "8"
            && !Collides("7", {"6"})
  {
    var first := Attempt(Infinite, Some(NewNumber(5, 2024, 1)), Period(2024, 2), BareFormat());
    BareNumberFormat(first.candidate);
    assert first.candidate.increment == 6;
    assert DecimalText.Decimal(6) == "6";
    AliasedRetriesAdvanceByTwo(Infinite, first, Period(2024, 2), BareFormat(), 1);
    var second := Retries(Infinite, first, Period(2024, 2), BareFormat(), 1);
    BareNumberFormat(second.candidate);
    assert DecimalText.Decimal(8) == "8";
  }

  /** With the pattern "0" every candidate formats to "0".  An invoice
      numbered "0" exists, yet the first candidate does not collide, so the
      service issues "0" again. */
  lemma ZeroIsNeverACollision(g: Generator, last: Option<InvoiceNumber>, now: Period)
    requires CanGenerate(g, last)
    ensures var first := Attempt(g, last, now, ConfiguredFormat(Settings(None, Some("0"))));
            first.formatted == "0" && !Collides(first.formatted, {"0"})
  {
    var settings := Settings(None, Some("0"));
    var first := Attempt(g, last, now, ConfiguredFormat(settings));
    var plain := InvoiceNumber(first.candidate.increment, first.candidate.year, first.candidate.month, None);
    assert !StartsWithPlaceholder("0");
    FormatWithoutPlaceholders(plain, None, "0", settings);
  }
}

=== FILE: generator_manager.dfy ===
/** `InvoiceNumberGeneratorManager`: the definition check it adds to plugin
    discovery, and the lookup of a generator by its configured id.  A
    plugin definition is the annotation's key/value array. */
module GeneratorManager {
  import opened Wrappers
  import opened Generators

  type Definition = map<string, string>

  /** `empty($definition[$key])`: the key is missing, or its value is one of
      the strings PHP treats as empty, "" and "0". */
  function IsEmptyProperty(definition: Definition, key: string): (r: bool)
    ensures key !in definition ==> r
    ensures key in definition && |definition[key]| != 1 ==> (r <==> definition[key] == "")
    ensures key in definition && |definition[key]| == 1 ==> (r <==> definition[key][0] == '0')
  {
    key !in definition || definition[key] == "" || definition[key] == "0"
  }

  /** The properties checked, in the order the loop checks them. */
  const RequiredProperties: seq<string> := ["id", "label"]

  /** The position of the first property in `keys` that is empty, if any. */
  function FirstEmptyProperty(definition: Definition, keys: seq<string>): (r: Option<nat>)
    ensures r.None? <==> forall i :: 0 <= i < |keys| ==> !IsEmptyProperty(definition, keys[i])
    ensures r.Some? ==> r.value < |keys| && IsEmptyProperty(definition, keys[r.value])
    ensures r.Some? ==> forall i :: 0 <= i < r.value ==> !IsEmptyProperty(definition, keys[i])
    decreases |keys|
  {
    if |keys| == 0 then None
    else if IsEmptyProperty(definition, keys[0]) then Some(0)
    else match FirstEmptyProperty(definition, keys[1..])
      case None => None
      case Some(i) => Some(i + 1)
  }

  /** The exception `processDefinition` throws. */
  datatype PluginException = PluginException(message: string)

  /** The `sprintf` message: both values appear where the format string
      puts its two `%s`. */
  function MissingPropertyMessage(pluginId: string, property: string): (m: string)
    ensures |m| == |pluginId| + |property| + 56
    ensures m[29..29 + |pluginId|] == pluginId
    ensures m[|pluginId| + 46..|m| - 10] == property
    ensures m[..29] == "The invoice number generator " && m[|m| - 10..] == " property."
  {
    "The invoice number generator " + pluginId + " must define the " + property + " property."
  }

  /** `processDefinition(&$definition, $plugin_id)`: a definition without an
      id, or with an id but without a label, is rejected, the id being
      checked first; the description is never required.  An accepted
      definition is left as it is. */
  function ProcessDefinition(definition: Definition, pluginId: string): (r: Result<Definition, PluginException>)
    ensures r.Success? <==> !IsEmptyProperty(definition, "id") && !IsEmptyProperty(definition, "label")
    ensures r.Success? ==> r.value == definition
    ensures IsEmptyProperty(definition, "id") ==>
              r == Failure(PluginException(MissingPropertyMessage(pluginId, "id")))
    ensures !IsEmptyProperty(definition, "id") && IsEmptyProperty(definition, "label") ==>
              r == Failure(PluginException(MissingPropertyMessage(pluginId, "label")))
  {
    match FirstEmptyProperty(definition, RequiredProperties)
    case None => Success(definition)
    case Some(i) => Failure(PluginException(MissingPropertyMessage(pluginId, RequiredProperties[i])))
  }

  /** The description is not looked at: removing it changes nothing. */
  lemma DescriptionIsOptional(definition: Definition, pluginId: string)
    ensures ProcessDefinition(definition - {"description"}, pluginId).Success?
        <==> ProcessDefinition(definition, pluginId).Success?
  {
    var stripped := definition - {"description"};
    assert IsEmptyProperty(stripped, "id") <==> IsEmptyProperty(definition, "id");
    assert IsEmptyProperty(stripped, "label") <==> IsEmptyProperty(definition, "label");
  }

  /** The id each plugin declares in its annotation. */
  function PluginId(g: Generator): (id: string) {
    match g
    case Infinite => "infinite"
    case Yearly => "yearly"
    case Monthly => "monthly"
    case MonthlyNoReset => "monthly_no_reset"
  }

  /** The definition array of a `@CommerceInvoiceNumberGenerator` annotation. */
  function Annotation(id: string, labelText: string, description: string): (d: Definition)
    ensures "id" in d && d["id"] == id
    ensures "label" in d && d["label"] == labelText
  {
    assert "id" != "label" by { assert |"id"| != |"label"|; }
    assert "label" != "description" by { assert |"label"| != |"description"|; }
    assert "id" != "description" by { assert |"id"| != |"description"|; }
    map["id" := id, "label" := labelText, "description" := description]
  }

  /** The description each annotation declares. */
  const InfiniteDescription: string := "One single number, that is never reset and incremented at each invoice number generation"
  const YearlyDescription: string := "Reset every year, with an ID incremented at each invoice number generation"
  const MonthlyDescription: string := "Reset every month, with an ID incremented at each invoice number generation"
  const MonthlyNoResetDescription: string := "Increments the month, with an ID incremented at each invoice number generation"

  /** The annotation of each plugin, as discovered. */
  function PluginDefinition(g: Generator): (d: Definition)
    ensures "id" in d && d["id"] == PluginId(g)
    ensures "label" in d && |d["label"]| > 1
  {
    match g
    case Infinite => Annotation("infinite", "Infinite", InfiniteDescription)
    case Yearly => Annotation("yearly", "Yearly", YearlyDescription)
    case Monthly => Annotation("monthly", "Monthly", MonthlyDescription)
    case MonthlyNoReset => Annotation("monthly_no_reset", "Monthly no reset", MonthlyNoResetDescription)
  }

  datatype PluginNotFound = PluginNotFound(pluginId: string)

  /** `createInstance($id)` over the four discovered plugins: the generator
      whose annotation declares `id`, or a not-found error. */
  function CreateInstance(id: string): (r: Result<Generator, PluginNotFound>)
    ensures r.Success? ==> PluginId(r.value) == id
    ensures r.Failure? <==> forall g: Generator :: PluginId(g) != id
    ensures r.Failure? ==> r.error == PluginNotFound(id)
  {
    if id == "infinite" then Success(Infinite)
    else if id == "yearly" then Success(Yearly)
    else if id == "monthly" then Success(Monthly)
    else if id == "monthly_no_reset" then Success(MonthlyNoReset)
    else Failure(PluginNotFound(id))
  }

  /** Every plugin is found under the id it declares. */
  lemma PluginsAreFoundById(g: Generator)
    ensures CreateInstance(PluginId(g)) == Success(g)
  {
    match g
    case Infinite =>
    case Yearly =>
      assert "yearly"[0] != "infinite"[0];
    case Monthly =>
      assert "monthly"[0] != "infinite"[0] && "monthly"[0] != "yearly"[0];
    case MonthlyNoReset =>
      assert "monthly_no_reset"[0] != "infinite"[0] && "monthly_no_reset"[0] != "yearly"[0];
      assert |"monthly_no_reset"| != |"monthly"|;
  }

  /** Every plugin's annotation declares its id and a label, so it passes
      `processDefinition`. */
  lemma PluginDefinitionsAreValid(g: Generator)
    ensures PluginDefinition(g)["id"] == PluginId(g)
    ensures ProcessDefinition(PluginDefinition(g), PluginId(g)).Success?
  {
    match g
    case Infinite =>
      AnnotationIsValid("infinite", "Infinite", InfiniteDescription, "infinite");
    case Yearly =>
      AnnotationIsValid("yearly", "Yearly", YearlyDescription, "yearly");
    case Monthly =>
      AnnotationIsValid("monthly", "Monthly", MonthlyDescription, "monthly");
    case MonthlyNoReset =>
      AnnotationIsValid("monthly_no_reset", "Monthly no reset", MonthlyNoResetDescription, "monthly_no_reset");
  }

  /** An annotation with an id and a label of two or more characters passes
      `processDefinition`. */
  lemma AnnotationIsValid(id: string, labelText: string, description: string, pluginId: string)
    requires |id| > 1 && |labelText| > 1
    ensures ProcessDefinition(Annotation(id, labelText, description), pluginId).Success?
  {
    NamedDefinitionIsValid(Annotation(id, labelText, description), pluginId);
  }

  /** A definition with an id and a label of two or more characters passes. */
  lemma NamedDefinitionIsValid(d: Definition, pluginId: string)
    requires "id" in d && "label" in d && |d["id"]| > 1 && |d["label"]| > 1
    ensures ProcessDefinition(d, pluginId).Success?
  {
  }
}

=== FILE: generators.dfy ===
/** The four invoice number generator plugins.  Each takes the last issued
    number (or nothing) and the current period, read by the source from
    `date('Y')` and `date('m')`, and returns the next number.

    A PHP generator either mutates the object it was given and returns that
    very object, or builds a fresh one.  `Generated.reusedLast` records
    which: when it is true, the caller's `last` object now holds `number`
    too. */
module Generators {
  import opened Wrappers
  import opened InvoiceNumbers

  /** The current calendar period, as `date('Y')` and `date('m')` give it. */
  datatype Period = Period(year: nat, month: nat)

  datatype Generator = Infinite | Yearly | Monthly | MonthlyNoReset

  datatype Generated = Generated(number: InvoiceNumber, reusedLast: bool)

  /** `MonthlyNoReset` calls `getIncrementNumber()` on NULL when there is no
      last number, which PHP reports as a fatal error. */
  datatype GeneratorError = NullLastNumber

  /** The reset rule of each generator: a number still belongs to the current
      period, so its counter continues in place. */
  predicate InPeriod(g: Generator, n: InvoiceNumber, now: Period) {
    match g
    case Infinite => true
    case Yearly => n.year == now.year
    case Monthly => n.year == now.year && n.month == now.month
    case MonthlyNoReset => n.year == now.year && n.month == now.month
  }

  /** `InfiniteInvoiceNumberGenerator::generate`: one counter that is never
      reset; a last number keeps its own period, whatever the date. */
  function GenerateInfinite(last: Option<InvoiceNumber>, now: Period): (r: Generated)
    ensures last.None? ==> r == Generated(NewNumber(1, now.year, now.month), false)
    ensures last.Some? ==> r.reusedLast && r.number.increment == last.value.increment + 1
    ensures last.Some? ==> r.number.year == last.value.year && r.number.month == last.value.month
    ensures last.Some? ==> r.number == Increment(last.value)
    ensures r.number.increment >= 1
  {
    match last
    case None => Generated(Increment(NewNumber(0, now.year, now.month)), false)
    case Some(n) => Generated(Increment(n), true)
  }

  /** `YearlyInvoiceNumberGenerator::generate`: the counter restarts when the
      year changes; within a year the last number's month is kept. */
  function GenerateYearly(last: Option<InvoiceNumber>, now: Period): (r: Generated)
    ensures r.number.year == now.year
    ensures r.reusedLast <==> last.Some? && last.value.year == now.year
    ensures !r.reusedLast ==> r.number == NewNumber(1, now.year, now.month)
    ensures r.reusedLast ==> r.number.increment == last.value.increment + 1 && r.number.month == last.value.month
    ensures r.reusedLast ==> r.number == Increment(last.value)
  {
    if last.None? || now.year != last.value.year then
      Generated(Increment(NewNumber(0, now.year, now.month)), false)
    else
      Generated(Increment(last.value), true)
  }

  /** `MonthlyInvoiceNumberGenerator::generate`: the counter restarts when
      the year or the month changes. */
  function GenerateMonthly(last: Option<InvoiceNumber>, now: Period): (r: Generated)
    ensures r.number.year == now.year && r.number.month == now.month
    ensures r.reusedLast <==> last.Some? && last.value.year == now.year && last.value.month == now.month
    ensures !r.reusedLast ==> r.number == NewNumber(1, now.year, now.month)
    ensures r.reusedLast ==> r.number.increment == last.value.increment + 1
    ensures r.reusedLast ==> r.number == Increment(last.value)
  {
    if last.None? || now.year != last.value.year || now.month != last.value.month then
      Generated(Increment(NewNumber(0, now.year, now.month)), false)
    else
      Generated(Increment(last.value), true)
  }

  /** `MonthlyNoResetInvoiceNumberGenerator::generate`: a new period gets a
      new object, but the counter is carried forward, never reset. */
  function GenerateMonthlyNoReset(last: Option<InvoiceNumber>, now: Period): (r: Result<Generated, GeneratorError>)
    ensures r.Failure? <==> last.None?
    ensures r.Success? ==> r.value.number.increment == last.value.increment + 1
    ensures r.Success? ==> r.value.number.year == now.year && r.value.number.month == now.month
    ensures r.Success? ==> (r.value.reusedLast <==> last.value.year == now.year && last.value.month == now.month)
    ensures r.Success? && r.value.reusedLast ==> r.value.number == Increment(last.value)
    ensures r.Success? ==> r.value.number.value == (if r.value.reusedLast then last.value.value else None)
  {
    match last
    case None => Failure(NullLastNumber)
    case Some(n) =>
      if now.year != n.year || now.month != n.month then
        Success(Generated(Increment(NewNumber(n.increment, now.year, now.month)), false))
      else
        Success(Generated(Increment(n), true))
  }

  /** The first invoice ever, under `MonthlyNoReset`: there is no last
      number, and the generator fails where the interface promises a fresh
      number. */
  lemma MonthlyNoResetFailsWithoutLastNumber(now: Period)
    ensures GenerateMonthlyNoReset(None, now).Failure?
    ensures GenerateMonthly(None, now).number == NewNumber(1, now.year, now.month)
  {
  }

  /** `MonthlyNoResetInvoiceNumberGenerator::generate` as the interface
      describes it: without a last number it starts a fresh counter at 1,
      and otherwise it does what the source does. */
  function GenerateMonthlyNoResetCorrected(last: Option<InvoiceNumber>, now: Period): (r: Generated)
    ensures last.None? ==> r == Generated(NewNumber(1, now.year, now.month), false)
    ensures last.Some? ==> GenerateMonthlyNoReset(last, now) == Success(r)
  {
    match last
    case None => Generated(Increment(NewNumber(0, now.year, now.month)), false)
    case Some(_) => GenerateMonthlyNoReset(last, now).value
  }

  /** A generator can run: every one but `MonthlyNoReset` accepts NULL. */
  predicate CanGenerate(g: Generator, last: Option<InvoiceNumber>) {
    last.Some? || g != MonthlyNoReset
  }

  /** The counter a generator continues from: the last one when it is kept
      (or, for `MonthlyNoReset`, carried), zero after a reset. */
  function CarriedCounter(g: Generator, last: Option<InvoiceNumber>, now: Period): (c: nat) {
    if last.Some? && (InPeriod(g, last.value, now) || g == MonthlyNoReset) then last.value.increment else 0
  }

  /** `$generator->generate($last)` for the configured plugin.  The result is
      one past the carried counter and belongs to the current period; the
      object passed in is returned exactly when it is still in its period. */
  function Generate(g: Generator, last: Option<InvoiceNumber>, now: Period): (r: Result<Generated, GeneratorError>)
    ensures r.Success? <==> CanGenerate(g, last)
    ensures r.Success? ==> (r.value.reusedLast <==> last.Some? && InPeriod(g, last.value, now))
    ensures r.Success? ==> InPeriod(g, r.value.number, now)
    ensures r.Success? ==> r.value.number.increment == CarriedCounter(g, last, now) + 1
    ensures r.Success? && r.value.reusedLast ==> r.value.number == Increment(last.value)
    ensures r.Success? && !r.value.reusedLast ==>
              r.value.number.year == now.year && r.value.number.month == now.month && r.value.number.value.None?
  {
    match g
    case Infinite => Success(GenerateInfinite(last, now))
    case Yearly => Success(GenerateYearly(last, now))
    case Monthly => Success(GenerateMonthly(last, now))
    case MonthlyNoReset => GenerateMonthlyNoReset(last, now)
  }

  /** The number held after `k` successive generations in the same period,
      each fed the previous result, as happens across `k` confirmations
      that meet no collision. */
  function Issue(g: Generator, last: Option<InvoiceNumber>, now: Period, k: nat): (r: Option<InvoiceNumber>)
    requires CanGenerate(g, last)
    ensures k > 0 ==> r.Some?
    decreases k
  {
    if k == 0 then last
    else
      var previous := Issue(g, last, now, k - 1);
      Some(Generate(g, previous, now).value.number)
  }

  /** Within one period, successive generations count up by one with no gap
      and no reset, starting from the carried counter. */
  lemma {:induction false} IssueCountsWithoutGaps(g: Generator, last: Option<InvoiceNumber>, now: Period, k: nat)
    requires CanGenerate(g, last)
    requires k > 0
    ensures Issue(g, last, now, k).value.increment == CarriedCounter(g, last, now) + k
    ensures InPeriod(g, Issue(g, last, now, k).value, now)
    decreases k
  {
    if k > 1 {
      IssueCountsWithoutGaps(g, last, now, k - 1);
      var previous := Issue(g, last, now, k - 1);
      assert CarriedCounter(g, previous, now) == previous.value.increment;
    }
  }

  /** A yearly counter restarts at a new year: 5 issued in December 2023
      becomes 1 in January 2024. */
  lemma YearlyResetExample()
    ensures GenerateYearly(Some(NewNumber(5, 2023, 12)), Period(2024, 1)).number == NewNumber(1, 2024, 1)
  {
  }

  /** A monthly counter restarts at a new month. */
  lemma MonthlyResetExample()
    ensures GenerateMonthly(Some(NewNumber(5, 2024, 1)), Period(2024, 2)).number == NewNumber(1, 2024, 2)
  {
  }

  /** The infinite counter continues and keeps the last number's period, even
      two years later. */
  lemma InfiniteKeepsPeriodExample()
    ensures GenerateInfinite(Some(NewNumber(5, 2023, 1)), Period(2025, 6)).number == NewNumber(6, 2023, 1)
  {
  }

  /** The no-reset counter carries 5 into the new month as 6. */
  lemma MonthlyNoResetCarryExample()
    ensures GenerateMonthlyNoReset(Some(NewNumber(5, 2024, 1)), Period(2024, 2)).value.number == NewNumber(6, 2024, 2)
  {
  }
}

=== FILE: invoice_number.dfy ===
/** The `InvoiceNumber` value object: a counter tagged with the period it
    belongs to, plus the rendered string last recorded on it.  The PHP class
    is mutable and shared by reference; here it is an immutable value, and
    the places where the source shares one object between two variables are
    tracked explicitly by the callers (see `Generators.Generated.reusedLast`
    and `GenerationService.LoopState.aliased`). */
module InvoiceNumbers {
  import opened Wrappers

  datatype InvoiceNumber = InvoiceNumber(
    increment: nat,        // getIncrementNumber()
    year: nat,             // getYear()
    month: nat,            // getMonth()
    value: Option<string>  // the string recorded by setValue(), if any
  )

  /** `new InvoiceNumber(increment, year, month)`: no rendered value yet. */
  function NewNumber(increment: nat, year: nat, month: nat): (n: InvoiceNumber)
    ensures n.increment == increment && n.year == year && n.month == month
    ensures n.value.None?
  {
    InvoiceNumber(increment, year, month, None)
  }

  /** `increment()`: adds one to the counter, nothing else changes. */
  function Increment(n: InvoiceNumber): (r: InvoiceNumber)
    ensures r.increment == n.increment + 1
    ensures r.(increment := n.increment) == n
  {
    n.(increment := n.increment + 1)
  }

  /** `setValue(s)`: records the rendered form. */
  function SetValue(n: InvoiceNumber, s: string): (r: InvoiceNumber)
    ensures r.value == Some(s)
    ensures r.(value := n.value) == n
  {
    n.(value := Some(s))
  }
}

=== FILE: wrappers.dfy ===
/** `Option` stands in for PHP's NULL, `Result` for a value or a thrown
    exception. */
module Wrappers {

  datatype Option<+T> = None | Some(value: T) {

    /** The wrapped value, or `default` when there is none. */
    function GetOr(default: T): (r: T) {
      match this
      case Some(v) => v
      case None => default
    }
  }

  datatype Result<+T, +E> = Success(value: T) | Failure(error: E)
}
